=== FILE: README.md ===
# File-system tool: the record and its handlers

The page script `index.js` simulates a small block-based file system. It keeps
one global record, `fileSystem`, with three parts:

- `files`, a name-keyed table of entries;
- `stats`, which holds the block counters, the usage and free-space figures,
  the cache and fragmentation figures, and five operation counters;
- `systemLogs`, the message log.

Every button handler changes that record in a small, fixed way. This project
models the record as an immutable value and each handler as a pure function
from one record to the next. The timer-driven progress loops of crash
recovery, repair and optimization are written twice: once as a step function
fired until the progress reaches 100, once in closed form. Lemmas prove the
two agree. The random integrity scan is a function of its three draws. A
session is any sequence of handler calls; the session lemmas prove what
holds for every such sequence.

Modules, one per file:

- `JsText` (`text.dfy`): the JavaScript string behaviour the handlers rely
  on.
  - `trim` strips ECMAScript whitespace and line terminators.
  - `length` counts UTF-16 code units.
  - `${n}` renders an integer in decimal.
- `FileSystem` (`filesystem.dfy`): the record, the counters, `addLogEntry`,
  the block-moving pattern shared by four handlers, and the initial record.
- `Handlers` (`handlers.dfy`): view, download, delete, create, the save
  branch of the edit button, upload, and the start-up log lines.
- `Progress` (`progress.dfy`): the values a `setInterval` progress counter
  reports.
- `Maintenance` (`maintenance.dfy`): crash recovery, the integrity scan,
  repair and optimization. It also holds the tick-by-tick loop and an
  imperative driver for it.
- `HandlerFacts` (`handler_facts.dfy`): how the file handlers combine.
- `Session` (`session.dfy`): handlers applied one after another, and the
  invariants every session keeps.

Some choices follow the code's JavaScript semantics:

- A lookup `fileSystem.files[name]` is truthy for an own entry. It is also
  truthy for the twelve members every object inherits from
  `Object.prototype` (`toString`, `constructor`, `__proto__`, ...). This
  lookup guards view, download, save and the duplicate check of create, so
  the model uses `NameTaken` for those guards, not plain key membership.
- Counters and block counts are unbounded integers. Nothing stops the used
  block count going below zero (`Session.UsedBlocksGoNegative`).
- The percentage and size figures are exact reals.

## Model

| member | source | states |
|---|---|---|
| FileSystem.Initial | index.js:2-61 | The loaded record has four entries (`images` is a directory) and six log lines. Its blocks add up to 1000, its usage and free-space figures agree with the blocks, and fragmentation and cache ratio start inside the maintenance range. |
| FileSystem.MoveBlocks | index.js:243-246 | Moving `n` blocks changes the used count by `n` and the free count by `-n`, keeps their sum, and recomputes usage as `used / total * 100`. The counters and the other figures are untouched. |
| FileSystem.Bump | index.js:211 | An increment raises exactly one counter by one and leaves the other four alone. |
| JsText.TrimIsSlice | index.js:254 | `trim` returns a contiguous slice of its input. Only whitespace is cut off either end, and the result neither starts nor ends with whitespace. |
| JsText.TrimEmptyIffBlank | index.js:254-260 | A name trims to the empty string exactly when it is all whitespace. Both directions are proved. |
| JsText.TrimIdempotent | index.js:254 | Trimming a trimmed name changes nothing. |
| JsText.Utf16LengthBounds | index.js:270 | A string's `length` lies between its character count and twice that. It equals the character count exactly when no character is outside the Basic Multilingual Plane. |
| JsText.NatToStringDigits | index.js:311 | `${n}` for a natural number is all decimal digits, and starts with `0` only for zero. |
| JsText.IntToStringSign | index.js:311 | `${n}` starts with a minus sign exactly when `n` is negative. |
| JsText.ParseNatToString | index.js:311 | Reading the decimal rendering back gives the number rendered. |
| JsText.NatToStringInjective | index.js:403 | Different counts render differently, so a logged count identifies the count. |
| Handlers.ShownText | index.js:195-205 | The view dialog shows nothing exactly when the lookup fails. It shows the stored content when there is non-empty content, and the placeholder naming the file otherwise: for a directory, an empty file, or an inherited member. |
| Handlers.ViewFile | index.js:195-215 | A failed lookup leaves the record unchanged. Otherwise the view counts exactly one read, logs `Viewed file`, and changes nothing else. |
| Handlers.DownloadFile | index.js:218-232 | A failed lookup or a directory leaves the record unchanged. Otherwise the download logs `Downloaded file` and counts exactly one read; files and the other figures stay. |
| Handlers.DeleteFile | index.js:235-250 | A declined prompt changes nothing. A confirmed one removes exactly the named key and keeps every other entry. It always moves five blocks from used to free, refreshes usage, counts one dealloc and logs `Deleted`. It does not check that the name exists. |
| Handlers.CheckCreate | index.js:253-265 | The guards of create, in order. The name is rejected as empty exactly when it is all whitespace. It is rejected as a duplicate exactly when its trimmed form is a truthy lookup. Otherwise it is accepted as the trimmed name. |
| Handlers.CreateFile | index.js:253-296 | A rejected name leaves the record unchanged. An accepted name adds exactly one file entry, with the content's JavaScript length as its size. No other entry changes. Two blocks move to used, usage is refreshed, writes and allocs each go up by one, and one `Created file` line is logged. |
| Handlers.SaveFile | index.js:754-765 | A failed lookup changes nothing. An own entry gets the new content and size, keeps its kind, and no other entry changes. An inherited member leaves the table alone. Either way one write is counted and one `Modified file` line is logged. |
| Handlers.BlocksFor | index.js:636-638 | The blocks an upload reserves are the ceiling of its size over the block size: they hold the file, and one fewer would not. |
| Handlers.UploadFile | index.js:619-660 | A finished upload inserts or overwrites the entry under the file's name, with no duplicate check, and no other entry changes. It reserves `BlocksFor(size)` blocks, refreshes usage and free space from the blocks, counts one write and one alloc, and logs the upload line. |
| Handlers.HandleFiles | index.js:610-663 | An empty selection does nothing. The table gains exactly the selected names. The used blocks grow by the sum of the per-file reservations, the usage and free-space figures agree with the blocks afterwards, and writes and allocs each grow by the number of files. |
| Handlers.HandleFilesKeepsOthers | index.js:614-627 | An upload leaves every entry whose name was not selected exactly as it was. |
| Handlers.HandleFilesLastWins | index.js:614-634 | Each selected name holds the entry built from the last file in the selection that carries it, so a later file of the same name overwrites an earlier one. The uploads finish in selection order, because all their 100 ms intervals start together and each finishes on its tenth firing. |
| Handlers.HandleFilesLog | index.js:614-653 | An upload logs exactly one line per selected file, in selection order, each naming the file and its size label, and nothing else. |
| Handlers.AnnounceReady | index.js:809-813 | Start-up appends the three ready lines, in order, and changes nothing else. |
| Progress.TraceClosedForm | index.js:308-313 | The `i`-th value a loop reports is its start plus `i + 1` steps. |
| Progress.TraceStopsAtHundred | index.js:313-314 | Every reported value before the last is below 100, and the last is at least 100. |
| Progress.TraceEndsAtHundred | index.js:308-316 | When `k` steps reach 100 exactly, the loop ticks `k` times and ends at exactly 100. |
| Progress.TensFromZero | index.js:308-316 | The recovery and optimization loops report 10, 20, ..., 100. |
| Progress.TwentiesFromZero | index.js:414-420 | The repair loop reports 20, 40, 60, 80, 100. |
| Maintenance.ProgressLogAt | index.js:311 | The `i`-th progress line reports the `i`-th traced value. |
| Maintenance.RepairedFigures | index.js:424-431 | Repair sets fragmentation to `max(5, f - 5)` and the cache ratio to `min(95, c + 5)`. Both bounds hold, each result is one of its two candidates, and every other field is unchanged. |
| Maintenance.RepairKeepsBounds | index.js:424-431 | From inside the range `MaintenanceBounds` names (fragmentation 2..12, cache ratio 85..98), which the loaded record lies in, repair stays inside it. |
| Maintenance.OptimizedFigures | index.js:462-475 | Optimization sets fragmentation to `max(2, f * 0.5)` and the cache ratio to `min(98, c * 1.1)`. It moves fifteen blocks from used to free, makes usage and free space agree with the blocks again, and leaves the counters alone. |
| Maintenance.OptimizeKeepsBounds | index.js:462-469 | From inside the range `MaintenanceBounds` names (fragmentation 2..12, cache ratio 85..98), which the loaded record lies in, optimization stays inside it. |
| Maintenance.LoopTrace | index.js:302-316 | A loop started at 0 ticks `100 / step` times: the `k`-th tick reports `step * (k + 1)`, so ten ticks in steps of 10 or five in steps of 20, and the last reports exactly 100. |
| Maintenance.LoopLogLines | index.js:302-316 | A loop handler's log is its opening lines, then one progress line per tick reporting that tick's value, in order, then the completion line, and nothing else. |
| Maintenance.RunHandler | index.js:304-320 | Running a loop handler tick by tick leaves the files alone, applies the loop's final work to the figures once, and appends exactly the loop's log. |
| Maintenance.RunLoop | index.js:309-320 | Firing the interval never touches the files. |
| Maintenance.LastTick | index.js:313-319 | The last tick is the final work after the single-line trace. |
| Maintenance.RunLoopLogsTraceThenFinishes | index.js:309-320 | The interval fired until it clears itself logs one line per traced value, then does the final work exactly once. |
| Maintenance.LoopTraceEndsAtHundred | index.js:313 | Every loop started at 0 reports exactly 100 last. |
| Maintenance.TickOnce | index.js:309-320 | One firing adds the step. It finishes exactly when progress reaches 100, and the rest of the run from the new state equals the rest from the old one. |
| Maintenance.TickKeepsTrace | index.js:309-313 | One tick moves its value from the unvisited part of the trace to the visited part. |
| Maintenance.DriveLoop | index.js:308-320 | The interval driven firing by firing visits exactly the trace of progress values, and ends in the state the recursive description gives. |
| Maintenance.DriveLoopToHundred | index.js:308-316 | The driven interval's last reported value is exactly 100. |
| Maintenance.SimulateCrash | index.js:299-323 | A declined prompt changes nothing. A confirmed crash leaves files and figures alone, counts exactly one recovery, and logs the warning, the start line, ten progress lines and the completion line. |
| Maintenance.SimulateCrashRunsLoop | index.js:299-323 | The closed form of a confirmed crash equals the recovery interval run tick by tick. |
| Maintenance.ScanIssues | index.js:338-359 | Each of the three issues is reported exactly when its draw came up, and nothing else is reported. At most three issues come out, in the order error, warning, info. Exactly the error and the warning are fixable. |
| Maintenance.AtMostTwoFixable | index.js:338-359 | Only the first two issues of a scan can be fixable. |
| Maintenance.CheckIntegrity | index.js:326-406 | The scan leaves files and figures alone and logs its start line and the number of issues found. The repair button is offered exactly when some issue was found. |
| Maintenance.FixIntegrityIssues | index.js:409-445 | Repair takes no issues and has no guard. It leaves files, blocks and counters alone, clamps the two figures, and logs its start line, five progress lines and the completion line. |
| Maintenance.FixRunsLoop | index.js:413-431 | The closed form of repair equals the repair interval run tick by tick. |
| Maintenance.RepairCanWorsenFigures | index.js:424-431 | The clamps are not improvements everywhere. Below 5% repair raises fragmentation, and above 95% it lowers the cache ratio. |
| Maintenance.OptimizeFileSystem | index.js:448-482 | Optimization leaves files and counters alone, updates the figures as the clamps say, and logs its start line, ten progress lines and the completion line. |
| Maintenance.OptimizeRunsLoop | index.js:452-478 | The closed form of optimization equals the optimization interval run tick by tick. |
| HandlerFacts.CreateThenView | index.js:268-282 | A file created and then viewed shows exactly its content, or the placeholder when the content is empty. The log gains the create line and the view line. |
| HandlerFacts.SaveThenView | index.js:754-757 | After a save, the view shows what was saved. |
| HandlerFacts.SaveTwice | index.js:754-760 | Saving twice leaves the table as the second save alone would, and counts two writes. |
| HandlerFacts.CreateThenDelete | index.js:235-290 | Deleting a file just created restores the table. The used count ends three lower, not equal: two blocks were reserved and five released. Writes, allocs and deallocs each go up by one. |
| HandlerFacts.DeleteThenLookupFails | index.js:195-250 | After a confirmed delete of a name that is not inherited, view, download and save of that name change nothing. |
| HandlerFacts.CreateTwice | index.js:262-265 | A second create under the same raw name changes nothing, whatever its content. |
| HandlerFacts.CreateRefusesInherited | index.js:262-265 | A name that trims to an inherited member is refused as a duplicate, and the record is unchanged. |
| HandlerFacts.UploadTwiceReservesTwice | index.js:627-640 | Uploading the same file twice leaves one entry but reserves its blocks twice. |
| HandlerFacts.DeleteIgnoresSize | index.js:237-244 | Deleting a name that is not in the table leaves the table alone but still hands back five blocks. |
| HandlerFacts.CreateLeavesFreeSizeStale | index.js:285-291 | Create does not refresh the free-space figure. The first create on the loaded page leaves 748 free blocks displayed as 750 KB free. |
| Session.ApplyKeepsConsistent | index.js:243-246 | Every handler keeps used plus free blocks at the device size and the usage figure in step with the blocks. Delete, create, optimization and upload repeat this pattern. |
| Session.RunKeepsConsistent | index.js:243-246 | The block bookkeeping holds after any sequence of handlers. |
| Session.ApplyKeepsMaintenanceBounds | index.js:424-469 | Every handler keeps fragmentation within 2..12 and the cache ratio within 85..98. |
| Session.OthersKeepFigures | index.js:462-469 | Only repair and optimization move the fragmentation and cache figures. |
| Session.RunKeepsMaintenanceBounds | index.js:424-469 | The maintenance range holds after any sequence of handlers. |
| Session.ApplyExtendsLog | index.js:170-175 | Every handler only appends to the log. |
| Session.RunExtendsLog | index.js:170-175 | A session never removes or rewrites a log line. |
| Session.ApplyCountsUp | index.js:211 | No handler lowers any operation counter. |
| Session.LookupOpCountsUp | index.js:230 | View, download and delete never lower a counter. |
| Session.StoreOpCountsUp | index.js:646-647 | Create, save and upload never lower a counter. |
| Session.UploadCountsUp | index.js:646-647 | An upload never lowers a counter: it only adds to writes and allocs. |
| Session.LoopOpCountsUp | index.js:316 | Crash, scan, repair, optimization and start-up never lower a counter. |
| Session.CrashCountsUp | index.js:316 | A crash never lowers a counter. |
| Session.RunCountsUp | index.js:211 | The operation counters never go down over a session. |
| Session.ApplyKeepsFiles | index.js:195-232 | Views, downloads, scans, the maintenance loops and start-up leave the table as it was. |
| Session.RunKeepsFiles | index.js:195-232 | A session of such handlers leaves the table as it was. |
| Session.Reachable | index.js:2-61 | Every record reachable from the loaded page keeps the block bookkeeping and the maintenance range, and still starts with the six initial log lines. |
| Session.RepeatedDeletes | index.js:243-246 | `n` confirmed deletes of any name lower the used count by `5 * n`. |
| Session.UsedBlocksGoNegative | index.js:243-247 | Fifty-one deletes from the loaded page leave the used count at -5. |
| Session.RepairRaisesFragmentation | index.js:424-427 | The repair's clamp raises fragmentation in a reachable session: two optimizations take the loaded page from 12% to 3%, and a repair then sets it to 5%. |
| Session.StartupAfterLoad | index.js:808-813 | Half a second after load the log is the six initial lines followed by the three ready lines, nine in all, with the table and figures as loaded. |

## Left out

- The DOM is not modelled: rendering, modals, tabs, alerts and `showAlert`, `displayFiles`, `updateSystemStats`, `updateSystemLogs`. They only display the record.
- `confirm` prompts become a boolean parameter: a declined prompt leaves the record unchanged.
- `Math.random` becomes the three draws of `Draws`, one per comparison in the scan.
- Timestamps are left out: the `created` and `modified` fields of entries, and the timestamp prefix `addLogEntry` puts on each line. The log holds the messages only.
- `formatSize` and `toFixed` (float-to-string formatting) are left out. The size label that an upload's log line quotes is a field of the uploaded file.
- Timer interleaving is not modelled. Each handler with a `setTimeout` or `setInterval` runs to completion before the next handler starts. The code has no guard against a second crash, repair or optimization starting while one is running, so interleaved runs are possible in the page but not in the model.
- The upload progress bar is not modelled. Each upload's interval only delays the bookkeeping of its final tick, which the model applies at once.
- Floating point is not modelled: `usage_percent`, `free_size_kb`, the cache ratio and fragmentation are exact reals, not IEEE doubles. `f * 0.5` and `c * 1.1` are therefore exact.
- Maintenance.RunHandler: recovery and repair log their completion line before their final work, and optimization after it. The model does the work first in every loop. The final record is the same either way.
- Handlers.SaveFile: a save to an inherited member writes `content` and `size` onto that shared member. Saving under `__proto__` writes them onto `Object.prototype` itself. After that, every entry without its own content (the `images` directory) and every inherited name shows the saved text in the view. The model leaves the table alone for such a save and does not track the shared member or the prototype.
- Handlers.UploadFile: for a file named `__proto__`, the assignment at index.js:627 sets the table's prototype instead of adding an own key. The own keys stay the same, and `type`, `size`, `content`, `created` and `modified` become truthy lookups. The model adds an own key `__proto__` holding the uploaded entry, so its key-set and entry clauses do not describe that input.
- Handlers.HandleFiles: an uploaded file named `__proto__` replaces the table's prototype rather than adding an own key. The model adds an own key like any other name.
- The Chart.js performance chart and the drag-and-drop wiring are foreign library and UI code.

Only create and download refuse input. Each shows an alert, which the model
leaves out, and leaves the record unchanged (index.js:220-222, 257-265). View
and save return silently when the lookup fails (index.js:197, 754). Nothing
else is refused: a delete of a missing name, a full device, a second crash
while one runs and a repair with no issues all go ahead, as follows:

- Delete frees five blocks whatever the entry held, and also when there was no entry.
- Repair ignores which issues the scan found.
- Create and upload do not check free space.
- Create and delete leave `free_size_kb` stale.
- The recovery log's first progress line reports 10%; no line reports 0%.

=== FILE: filesystem.dfy ===
/** The single record every handler of the simulated file system reads and
    writes (index.js:2-61), held as an immutable value: a handler is a
    function from one value of it to the next. */
module FileSystem {

  datatype Option<T> = None | Some(value: T)

  /** The `type` field of an entry. */
  datatype Kind = File | Directory

  /** One value of the name-keyed `files` table. The `created`/`modified`
      timestamps are not modelled. A directory starts without `content`. */
  datatype Entry = Entry(kind: Kind, size: nat, content: Option<string>)

  /** `stats.metrics`, the five operation counters (`reads`, `writes`,
      `allocs`, `deallocs`, `recoveries`). */
  datatype Metrics = Metrics(readOps: int, writeOps: int, allocOps: int, deallocOps: int, recoveryOps: int)

  datatype Counter = Reads | Writes | Allocs | Deallocs | Recoveries

  function Count(m: Metrics, c: Counter): int {
    match c
    case Reads => m.readOps
    case Writes => m.writeOps
    case Allocs => m.allocOps
    case Deallocs => m.deallocOps
    case Recoveries => m.recoveryOps
  }

  /** The fields of `stats` that some handler writes. Of the fields no
      handler writes, only the block count and block size enter a
      computation; they are the constants below. */
  datatype Stats = Stats(
    usedBlocks: int,
    freeBlocks: int,
    usagePercent: real,
    freeSizeKb: real,
    cacheHitRatio: real,
    fragmentationPercent: real,
    metrics: Metrics)

  /** `systemLogs` holds message strings; the timestamp prefix that
      `addLogEntry` adds is not modelled. */
  datatype FsState = FsState(files: map<string, Entry>, stats: Stats, log: seq<string>)

  const TotalBlocks: int := 1000
  const BlockSize: int := 1024

  /** `used_blocks / total_blocks * 100`, computed exactly. */
  function UsagePercentOf(used: int): real {
    used as real / TotalBlocks as real * 100.0
  }

  /** `free_blocks * (block_size / 1024)`, computed exactly. */
  function FreeSizeKbOf(free: int): real {
    free as real * (BlockSize as real / 1024.0)
  }

  predicate BlocksConserved(st: Stats) {
    st.usedBlocks + st.freeBlocks == TotalBlocks
  }

  predicate UsageInSync(st: Stats) {
    st.usagePercent == UsagePercentOf(st.usedBlocks)
  }

  predicate FreeSizeInSync(st: Stats) {
    st.freeSizeKb == FreeSizeKbOf(st.freeBlocks)
  }

  /** The block bookkeeping every handler keeps: the two block counters
      partition the device, and the stored usage figure matches them. */
  predicate Consistent(fs: FsState) {
    BlocksConserved(fs.stats) && UsageInSync(fs.stats)
  }

  /** The range the two maintenance figures stay in from the initial record on. */
  predicate MaintenanceBounds(st: Stats) {
    && 2.0 <= st.fragmentationPercent <= 12.0
    && 85.0 <= st.cacheHitRatio <= 98.0
  }

  /** Counter by counter, `after` is `before` plus one for each counter in
      `cs` and plus nothing for the others. */
  predicate CountedEach(before: Metrics, after: Metrics, cs: set<Counter>) {
    forall c :: Count(after, c) == Count(before, c) + (if c in cs then 1 else 0)
  }

  /** `after` agrees with `before` on everything but the counters. */
  predicate SameExceptMetrics(before: Stats, after: Stats) {
    after.(metrics := before.metrics) == before
  }

  /** The figures only maintenance and upload refresh are as they were. */
  predicate FiguresUnchanged(before: Stats, after: Stats) {
    && after.freeSizeKb == before.freeSizeKb
    && after.cacheHitRatio == before.cacheHitRatio
    && after.fragmentationPercent == before.fragmentationPercent
  }

  /** The entries of `before` other than `name` are in `after`, unchanged. */
  predicate OthersUnchanged(before: map<string, Entry>, after: map<string, Entry>, name: string) {
    forall n :: n in before && n != name ==> n in after && after[n] == before[n]
  }

  /** `m` with counter `c` one higher. */
  function Bump(m: Metrics, c: Counter): (r: Metrics)
    ensures CountedEach(m, r, {c})
  {
    match c
    case Reads => m.(readOps := m.readOps + 1)
    case Writes => m.(writeOps := m.writeOps + 1)
    case Allocs => m.(allocOps := m.allocOps + 1)
    case Deallocs => m.(deallocOps := m.deallocOps + 1)
    case Recoveries => m.(recoveryOps := m.recoveryOps + 1)
  }

  function Counted(fs: FsState, c: Counter): FsState {
    fs.(stats := fs.stats.(metrics := Bump(fs.stats.metrics, c)))
  }

  /** `addLogEntry`, without the timestamp. */
  function Log(fs: FsState, message: string): FsState {
    fs.(log := fs.log + [message])
  }

  function LogAll(fs: FsState, messages: seq<string>): FsState {
    fs.(log := fs.log + messages)
  }

  /** Moves `n` blocks from free to used (a negative `n` moves them back) and
      refreshes `usage_percent`; the pattern shared by create, delete, upload
      and optimize. */
  function MoveBlocks(st: Stats, n: int): (r: Stats)
    ensures r.usedBlocks == st.usedBlocks + n
    ensures r.usedBlocks + r.freeBlocks == st.usedBlocks + st.freeBlocks
    ensures UsageInSync(r)
    ensures r.metrics == st.metrics && FiguresUnchanged(st, r)
  {
    var used := st.usedBlocks + n;
    st.(usedBlocks := used, freeBlocks := st.freeBlocks - n, usagePercent := UsagePercentOf(used))
  }

  /** The table as the page loads it. */
  const InitialFiles: map<string, Entry> := map[
    "readme.txt" := Entry(File, 1024, Some("This is a readme file with instructions.")),
    "images" := Entry(Directory, 0, None),
    "data.bin" := Entry(File, 2048, Some("Binary data placeholder")),
    "notes.txt" := Entry(File, 512, Some("Important notes and reminders."))]

  const InitialLog: seq<string> := [
    "INFO: File system initialized with 1000 blocks",
    "INFO: Root directory created successfully",
    "INFO: Created file readme.txt",
    "INFO: Created directory images",
    "INFO: Created file data.bin",
    "INFO: Created file notes.txt" ]

  /** The record as the page loads it. */
  function Initial(): (fs: FsState)
    ensures Consistent(fs) && FreeSizeInSync(fs.stats) && MaintenanceBounds(fs.stats)
    ensures |fs.files| == 4 && "images" in fs.files && fs.files["images"].kind == Directory
    ensures |fs.log| == 6
  {
    assert InitialFiles.Keys == {"readme.txt", "images", "data.bin", "notes.txt"};
    FsState(InitialFiles, Stats(250, 750, 25.0, 750.0, 85.0, 12.0, Metrics(205, 97, 73, 45, 2)), InitialLog)
  }
}

=== FILE: handler_facts.dfy ===
/** How the file handlers of index.js combine: what a view shows after a
    create or a save, what a delete undoes, and where the block bookkeeping
    drifts from the table it describes. */
module HandlerFacts {
  import opened JsText
  import opened FileSystem
  import opened Handlers

  /** What the view dialog shows for content that was just stored. */
  function ShownFor(name: string, content: string): string {
    if content != [] then content else Placeholder(name)
  }

  /** A created file is viewable under its trimmed name and shows exactly
      the content it was created with (or the placeholder, when that content
      was empty). */
  lemma CreateThenView(fs: FsState, rawName: string, content: string)
    requires CheckCreate(fs, rawName).Accepted?
    ensures ShownText(CreateFile(fs, rawName, content), Trim(rawName)) == Some(ShownFor(Trim(rawName), content))
    ensures ViewFile(CreateFile(fs, rawName, content), Trim(rawName)).log
            == fs.log + [CreatedPrefix + Trim(rawName), ViewedPrefix + Trim(rawName)]
  {
    var r := CreateFile(fs, rawName, content);
    assert r.files[Trim(rawName)].content == Some(content);
  }

  /** After a save, the view shows what was saved. */
  lemma SaveThenView(fs: FsState, name: string, content: string)
    requires name in fs.files
    ensures ShownText(SaveFile(fs, name, content), name) == Some(ShownFor(name, content))
  {
    assert SaveFile(fs, name, content).files[name].content == Some(content);
  }

  /** Saving twice keeps only the second content; the two writes are both
      counted. */
  lemma SaveTwice(fs: FsState, name: string, first: string, second: string)
    requires name in fs.files
    ensures SaveFile(SaveFile(fs, name, first), name, second).files == SaveFile(fs, name, second).files
    ensures Count(SaveFile(SaveFile(fs, name, first), name, second).stats.metrics, Writes)
            == Count(fs.stats.metrics, Writes) + 2
  {
    var once, twice, direct := SaveFile(fs, name, first), SaveFile(SaveFile(fs, name, first), name, second), SaveFile(fs, name, second);
    assert twice.files.Keys == direct.files.Keys;
    forall n | n in twice.files ensures twice.files[n] == direct.files[n] {
      if n == name {
        assert twice.files[n] == Entry(fs.files[name].kind, Utf16Length(second), Some(second));
      }
    }
  }

  /** Deleting what was just created gives back the table it was created
      in, but not the blocks: two were reserved and five are released. */
  lemma CreateThenDelete(fs: FsState, rawName: string, content: string)
    requires CheckCreate(fs, rawName).Accepted?
    ensures DeleteFile(CreateFile(fs, rawName, content), Trim(rawName), true).files == fs.files
    ensures DeleteFile(CreateFile(fs, rawName, content), Trim(rawName), true).stats.usedBlocks
            == fs.stats.usedBlocks - 3
    ensures CountedEach(fs.stats.metrics,
                        DeleteFile(CreateFile(fs, rawName, content), Trim(rawName), true).stats.metrics,
                        {Writes, Allocs, Deallocs})
  {
    var name := Trim(rawName);
    var created := CreateFile(fs, rawName, content);
    var deleted := DeleteFile(created, name, true);
    assert deleted.files.Keys == fs.files.Keys;
    forall n | n in deleted.files ensures deleted.files[n] == fs.files[n] {
      assert n != name;
    }
    forall c ensures Count(deleted.stats.metrics, c)
                     == Count(fs.stats.metrics, c) + (if c in {Writes, Allocs, Deallocs} then 1 else 0) {
      assert Count(created.stats.metrics, c) == Count(fs.stats.metrics, c) + (if c in {Writes, Allocs} then 1 else 0);
    }
  }

  /** Once deleted, a name that is not an inherited member can no longer be
      viewed, downloaded or saved: each of those leaves the record alone. */
  lemma DeleteThenLookupFails(fs: FsState, name: string, content: string)
    requires name !in InheritedNames
    ensures ViewFile(DeleteFile(fs, name, true), name) == DeleteFile(fs, name, true)
    ensures DownloadFile(DeleteFile(fs, name, true), name) == DeleteFile(fs, name, true)
    ensures SaveFile(DeleteFile(fs, name, true), name, content) == DeleteFile(fs, name, true)
  {
    assert name !in DeleteFile(fs, name, true).files;
  }

  /** A second create under the same name changes nothing, whatever its
      content: the first either refused the name or took it. */
  lemma CreateTwice(fs: FsState, rawName: string, first: string, second: string)
    ensures CreateFile(CreateFile(fs, rawName, first), rawName, second) == CreateFile(fs, rawName, first)
  {
    var once := CreateFile(fs, rawName, first);
    if CheckCreate(fs, rawName).Accepted? {
      assert Trim(rawName) in once.files;
      assert CheckCreate(once, rawName) == DuplicateName;
    } else {
      assert once == fs;
    }
  }

  /** The members every object inherits can never be created as files. */
  lemma CreateRefusesInherited(fs: FsState, rawName: string, content: string)
    requires Trim(rawName) in InheritedNames
    ensures CheckCreate(fs, rawName) == DuplicateName
    ensures CreateFile(fs, rawName, content) == fs
  {
    assert Trim(rawName) != [];
    TrimEmptyIffBlank(rawName);
  }

  /** Uploading the same file twice leaves one entry, but reserves its
      blocks twice: the second upload replaces the entry without giving the
      first one's blocks back. */
  lemma UploadTwiceReservesTwice(fs: FsState, f: UploadedFile)
    ensures UploadFile(UploadFile(fs, f), f).files == UploadFile(fs, f).files
    ensures UploadFile(UploadFile(fs, f), f).stats.usedBlocks == fs.stats.usedBlocks + 2 * BlocksFor(f.size)
  {
    var once := UploadFile(fs, f);
    var twice := UploadFile(once, f);
    assert twice.files.Keys == once.files.Keys;
    forall n | n in twice.files ensures twice.files[n] == once.files[n] {
    }
  }

  /** A delete hands back five blocks whatever the entry held, and also when
      there was no entry at all. */
  lemma DeleteIgnoresSize(fs: FsState, name: string)
    requires name !in fs.files
    ensures DeleteFile(fs, name, true).files == fs.files
    ensures DeleteFile(fs, name, true).stats.usedBlocks == fs.stats.usedBlocks - DeleteBlocks
  {
    assert DeleteFile(fs, name, true).files.Keys == fs.files.Keys;
  }

  /** Create and delete refresh the usage figure but not the free space
      figure: the first create on the loaded page leaves 748 free blocks
      displayed as 750 KB free. */
  lemma CreateLeavesFreeSizeStale()
    ensures CheckCreate(Initial(), "a.txt").Accepted?
    ensures CreateFile(Initial(), "a.txt", "").stats.freeBlocks == 748
    ensures CreateFile(Initial(), "a.txt", "").stats.freeSizeKb == 750.0
    ensures !FreeSizeInSync(CreateFile(Initial(), "a.txt", "").stats)
  {
    var fs := Initial();
    assert AllWhitespace("a.txt") == false by { assert !IsJsWhitespace("a.txt"[0]); }
    assert Trim("a.txt") == "a.txt" by {
      assert !IsJsWhitespace("a.txt"[0]) && !IsJsWhitespace("a.txt"[4]);
      assert TrimStartIndex("a.txt") == 0;
      assert TrimEndIndex("a.txt") == 5;
    }
    assert "a.txt" !in fs.files;
  }
}

=== FILE: handlers.dfy ===
/** The file handlers of the page (index.js:194-296, 610-664 and the save
    branch of the edit listener at 738-767), each as a transition of the
    file-system record with the DOM work removed. */
module Handlers {
  import opened JsText
  import opened FileSystem

  // ---------------------------------------------------------------- lookup

  /** Own keys are not the only names `fileSystem.files[name]` finds: every
      plain object inherits these members of `Object.prototype`, and each
      lookup yields a truthy function (or, for `__proto__`, the prototype). */
  const InheritedNames: set<string> := {
    "constructor", "hasOwnProperty", "isPrototypeOf", "propertyIsEnumerable",
    "toLocaleString", "toString", "valueOf", "__proto__",
    "__defineGetter__", "__defineSetter__", "__lookupGetter__", "__lookupSetter__" }

  /** The lookup `fileSystem.files[name]` is truthy: the test behind view,
      download, save and the duplicate check of create. */
  predicate NameTaken(fs: FsState, name: string) {
    name in fs.files || name in InheritedNames
  }

  /** The lookup finds an own entry with non-empty content. */
  predicate HasShownContent(fs: FsState, name: string) {
    name in fs.files && fs.files[name].content.Some? && fs.files[name].content.value != []
  }

  // ---------------------------------------------------------------- view

  /** What the view dialog shows (`file.content || placeholder`): the stored
      content when it is there and non-empty, the placeholder for a
      directory, an empty file or an inherited member, and nothing when the
      lookup fails. */
  function ShownText(fs: FsState, name: string): (r: Option<string>)
    ensures r.None? <==> !NameTaken(fs, name)
    ensures HasShownContent(fs, name) ==> r == Some(fs.files[name].content.value)
    ensures NameTaken(fs, name) && !HasShownContent(fs, name) ==> r == Some(Placeholder(name))
  {
    if !NameTaken(fs, name) then None
    else if name !in fs.files then Some(Placeholder(name))
    else match fs.files[name].content
      case Some(c) => if c != [] then Some(c) else Some(Placeholder(name))
      case None => Some(Placeholder(name))
  }

  const PlaceholderHead: string := "This is the content of "
  const PlaceholderTail: string :=
    ".\nIn a real implementation, this would display actual file content from the Python backend."

  /** The text the view dialog falls back to. */
  function Placeholder(name: string): string {
    PlaceholderHead + name + PlaceholderTail
  }

  const ViewedPrefix: string := "INFO: Viewed file "

  /** `viewFile`: counts a read and logs it whenever the lookup is truthy. */
  function ViewFile(fs: FsState, name: string): (r: FsState)
    ensures !NameTaken(fs, name) ==> r == fs
    ensures NameTaken(fs, name) ==>
      && r.files == fs.files
      && r.log == fs.log + [ViewedPrefix + name]
      && SameExceptMetrics(fs.stats, r.stats)
      && CountedEach(fs.stats.metrics, r.stats.metrics, {Reads})
  {
    if NameTaken(fs, name) then Log(Counted(fs, Reads), ViewedPrefix + name) else fs
  }

  // ---------------------------------------------------------------- download

  /** The lookup is truthy and does not find a directory entry. */
  predicate Downloadable(fs: FsState, name: string) {
    NameTaken(fs, name) && !(name in fs.files && fs.files[name].kind == Directory)
  }

  const DownloadedPrefix: string := "INFO: Downloaded file "

  /** `downloadFile`: refuses a failed lookup or a directory, leaving the
      record as it was; otherwise logs the download and counts a read. */
  function DownloadFile(fs: FsState, name: string): (r: FsState)
    ensures !Downloadable(fs, name) ==> r == fs
    ensures Downloadable(fs, name) ==>
      && r.files == fs.files
      && r.log == fs.log + [DownloadedPrefix + name]
      && SameExceptMetrics(fs.stats, r.stats)
      && CountedEach(fs.stats.metrics, r.stats.metrics, {Reads})
  {
    if !NameTaken(fs, name) then fs
    else if name in fs.files && fs.files[name].kind == Directory then fs
    else Counted(Log(fs, DownloadedPrefix + name), Reads)
  }

  // ---------------------------------------------------------------- delete

  const DeletedPrefix: string := "INFO: Deleted "

  /** Blocks a delete hands back, whatever the entry's size. */
  const DeleteBlocks: int := 5

  /** `deleteFile`, with the answer to its `confirm` prompt as `confirmed`.
      There is no existence check: a confirmed delete of any name removes the
      key if present and always moves five blocks from used to free. */
  function DeleteFile(fs: FsState, name: string, confirmed: bool): (r: FsState)
    ensures !confirmed ==> r == fs
    ensures confirmed ==>
      && r.files.Keys == fs.files.Keys - {name}
      && OthersUnchanged(fs.files, r.files, name)
      && r.stats.usedBlocks == fs.stats.usedBlocks - 5
      && r.stats.freeBlocks == fs.stats.freeBlocks + 5
      && UsageInSync(r.stats)
      && FiguresUnchanged(fs.stats, r.stats)
      && CountedEach(fs.stats.metrics, r.stats.metrics, {Deallocs})
      && r.log == fs.log + [DeletedPrefix + name]
  {
    if !confirmed then fs
    else
      var logged := Log(fs.(files := fs.files - {name}), DeletedPrefix + name);
      Counted(logged.(stats := MoveBlocks(logged.stats, -DeleteBlocks)), Deallocs)
  }

  // ---------------------------------------------------------------- create

  datatype CreateCheck = EmptyName | DuplicateName | Accepted(name: string)

  /** The two guards of `createFile`, in the source's order, applied to the
      trimmed name. */
  function CheckCreate(fs: FsState, rawName: string): (c: CreateCheck)
    ensures c == EmptyName <==> AllWhitespace(rawName)
    ensures c == DuplicateName <==> !AllWhitespace(rawName) && NameTaken(fs, Trim(rawName))
    ensures c.Accepted? ==> c.name == Trim(rawName) && c.name != [] && !NameTaken(fs, c.name)
  {
    TrimEmptyIffBlank(rawName);
    var name := Trim(rawName);
    if name == [] then EmptyName
    else if NameTaken(fs, name) then DuplicateName
    else Accepted(name)
  }

  const CreatedPrefix: string := "INFO: Created file "

  /** Blocks a create reserves, whatever the content's length. */
  const CreateBlocks: int := 2

  /** `createFile`. A rejected name leaves the record as it was. An accepted
      one adds exactly that entry, a file whose size is the content's
      JavaScript length, and leaves every other entry alone. */
  function CreateFile(fs: FsState, rawName: string, content: string): (r: FsState)
    ensures !CheckCreate(fs, rawName).Accepted? ==> r == fs
    ensures CheckCreate(fs, rawName).Accepted? ==>
      var name := Trim(rawName);
      && name !in fs.files
      && r.files.Keys == fs.files.Keys + {name}
      && r.files[name] == Entry(File, Utf16Length(content), Some(content))
      && OthersUnchanged(fs.files, r.files, name)
      && r.stats.usedBlocks == fs.stats.usedBlocks + 2
      && r.stats.freeBlocks == fs.stats.freeBlocks - 2
      && UsageInSync(r.stats)
      && FiguresUnchanged(fs.stats, r.stats)
      && CountedEach(fs.stats.metrics, r.stats.metrics, {Writes, Allocs})
      && r.log == fs.log + [CreatedPrefix + name]
  {
    match CheckCreate(fs, rawName)
    case Accepted(name) =>
      var added := fs.(files := fs.files[name := Entry(File, Utf16Length(content), Some(content))]);
      var logged := Log(added, CreatedPrefix + name);
      Counted(Counted(logged.(stats := MoveBlocks(logged.stats, CreateBlocks)), Writes), Allocs)
    case _ => fs
  }

  // ---------------------------------------------------------------- save

  const ModifiedPrefix: string := "INFO: Modified file "

  /** The save branch of the edit button: for an own entry, replaces the
      content, sets the size to its JavaScript length and counts a write.
      The entry keeps its kind, so a directory that is saved gains content.
      For an inherited member the fields land on that member, outside the
      table: only the write and the log line show. */
  function SaveFile(fs: FsState, name: string, content: string): (r: FsState)
    ensures !NameTaken(fs, name) ==> r == fs
    ensures name in fs.files ==>
      && r.files.Keys == fs.files.Keys
      && r.files[name] == Entry(fs.files[name].kind, Utf16Length(content), Some(content))
      && OthersUnchanged(fs.files, r.files, name)
    ensures name !in fs.files ==> r.files == fs.files
    ensures NameTaken(fs, name) ==>
      && SameExceptMetrics(fs.stats, r.stats)
      && CountedEach(fs.stats.metrics, r.stats.metrics, {Writes})
      && r.log == fs.log + [ModifiedPrefix + name]
  {
    if !NameTaken(fs, name) then fs
    else
      var saved :=
        if name in fs.files then
          var e := fs.files[name];
          fs.(files := fs.files[name := e.(content := Some(content), size := Utf16Length(content))])
        else fs;
      Log(Counted(saved, Writes), ModifiedPrefix + name)
  }

  // ---------------------------------------------------------------- upload

  /** A file handed to `handleFiles`: its name, its size in bytes, and the
      `formatSize` rendering of that size, which the upload log line quotes. */
  datatype UploadedFile = UploadedFile(name: string, size: nat, sizeLabel: string)

  /** `Math.ceil(size / block_size)`: the fewest whole blocks that hold
      `size` bytes. */
  function BlocksFor(size: nat): (b: nat)
    ensures b * BlockSize >= size
    ensures b > 0 ==> (b - 1) * BlockSize < size
  {
    (size + BlockSize - 1) / BlockSize
  }

  const UploadedContentPrefix: string := "Simulated content for "
  const UploadedPrefix: string := "INFO: Uploaded file "

  function UploadedEntry(f: UploadedFile): Entry {
    Entry(File, f.size, Some(UploadedContentPrefix + f.name))
  }

  function UploadMessage(f: UploadedFile): string {
    UploadedPrefix + f.name + " (" + f.sizeLabel + ")"
  }

  /** One upload reaching 100%: inserts the entry under the file's name,
      replacing any entry already there, reserves the ceiling of its size in
      blocks, refreshes the usage and free-space figures and counts a write
      and an allocation. */
  function UploadFile(fs: FsState, f: UploadedFile): (r: FsState)
    ensures r.files.Keys == fs.files.Keys + {f.name}
    ensures r.files[f.name] == UploadedEntry(f)
    ensures OthersUnchanged(fs.files, r.files, f.name)
    ensures r.stats.usedBlocks == fs.stats.usedBlocks + BlocksFor(f.size)
    ensures r.stats.usedBlocks + r.stats.freeBlocks == fs.stats.usedBlocks + fs.stats.freeBlocks
    ensures UsageInSync(r.stats) && FreeSizeInSync(r.stats)
    ensures r.stats.cacheHitRatio == fs.stats.cacheHitRatio
    ensures r.stats.fragmentationPercent == fs.stats.fragmentationPercent
    ensures CountedEach(fs.stats.metrics, r.stats.metrics, {Writes, Allocs})
    ensures r.log == fs.log + [UploadMessage(f)]
  {
    var added := fs.(files := fs.files[f.name := UploadedEntry(f)]);
    var moved := MoveBlocks(added.stats, BlocksFor(f.size));
    var synced := added.(stats := moved.(freeSizeKb := FreeSizeKbOf(moved.freeBlocks)));
    Log(Counted(Counted(synced, Writes), Allocs), UploadMessage(f))
  }

  function SumBlocks(files: seq<UploadedFile>): nat {
    if files == [] then 0 else BlocksFor(files[0].size) + SumBlocks(files[1..])
  }

  function Names(files: seq<UploadedFile>): set<string> {
    set i | 0 <= i < |files| :: files[i].name
  }

  /** The names of a selection are its first name and the names of the rest. */
  lemma NamesCons(files: seq<UploadedFile>)
    requires files != []
    ensures Names(files) == {files[0].name} + Names(files[1..])
  {
    forall n | n in Names(files) ensures n in {files[0].name} + Names(files[1..]) {
      var i :| 0 <= i < |files| && files[i].name == n;
      if i > 0 { assert files[1..][i - 1].name == n; }
    }
    forall n | n in Names(files[1..]) ensures n in Names(files) {
      var i :| 0 <= i < |files[1..]| && files[1..][i].name == n;
      assert files[i + 1].name == n;
    }
  }

  /** `handleFiles`: every selected file completes its upload, in selection
      order; an empty selection does nothing. */
  function HandleFiles(fs: FsState, files: seq<UploadedFile>): (r: FsState)
    ensures files == [] ==> r == fs
    ensures r.files.Keys == fs.files.Keys + Names(files)
    ensures r.stats.usedBlocks == fs.stats.usedBlocks + SumBlocks(files)
    ensures r.stats.usedBlocks + r.stats.freeBlocks == fs.stats.usedBlocks + fs.stats.freeBlocks
    ensures files != [] ==> UsageInSync(r.stats) && FreeSizeInSync(r.stats)
    ensures UsageInSync(fs.stats) ==> UsageInSync(r.stats)
    ensures r.stats.cacheHitRatio == fs.stats.cacheHitRatio
    ensures r.stats.fragmentationPercent == fs.stats.fragmentationPercent
    ensures forall c :: Count(r.stats.metrics, c)
                        == Count(fs.stats.metrics, c) + (if c in {Writes, Allocs} then |files| else 0)
    decreases |files|
  {
    if files == [] then fs
    else
      var first := UploadFile(fs, files[0]);
      var r := HandleFiles(first, files[1..]);
      NamesCons(files);
      r
  }

  /** Position `i` holds the last file of the selection with its name. */
  predicate LastOfItsName(files: seq<UploadedFile>, i: int)
    requires 0 <= i < |files|
  {
    forall j :: i < j < |files| ==> files[j].name != files[i].name
  }

  /** An upload leaves every entry whose name was not selected as it was. */
  lemma {:induction false} HandleFilesKeepsOthers(fs: FsState, files: seq<UploadedFile>)
    ensures forall n :: n in fs.files && n !in Names(files) ==> HandleFiles(fs, files).files[n] == fs.files[n]
    decreases |files|
  {
    if files != [] {
      var first := UploadFile(fs, files[0]);
      HandleFilesKeepsOthers(first, files[1..]);
      NamesCons(files);
    }
  }

  /** A last file further back stays last in the rest of the selection. */
  lemma LastOfItsNameInRest(files: seq<UploadedFile>, i: int)
    requires 0 < i < |files| && LastOfItsName(files, i)
    ensures files[1..][i - 1] == files[i] && LastOfItsName(files[1..], i - 1)
  {
    var rest := files[1..];
    forall j | i - 1 < j < |rest| ensures rest[j].name != rest[i - 1].name {
      assert rest[j] == files[j + 1];
    }
  }

  /** A first file that is last of its name is not named again later. */
  lemma LastFirstNotInRest(files: seq<UploadedFile>)
    requires files != [] && LastOfItsName(files, 0)
    ensures files[0].name !in Names(files[1..])
  {
    var rest := files[1..];
    forall j | 0 <= j < |rest| ensures rest[j].name != files[0].name {
      assert rest[j] == files[j + 1];
    }
  }

  /** Each selected name ends up holding the entry of the last file in the
      selection that carries it: a later file overwrites an earlier one. */
  lemma {:induction false} HandleFilesLastWins(fs: FsState, files: seq<UploadedFile>)
    ensures forall i :: 0 <= i < |files| && LastOfItsName(files, i) ==>
              HandleFiles(fs, files).files[files[i].name] == UploadedEntry(files[i])
    decreases |files|
  {
    if files != [] {
      var first := UploadFile(fs, files[0]);
      var rest := files[1..];
      var r := HandleFiles(first, rest);
      assert HandleFiles(fs, files) == r;
      HandleFilesLastWins(first, rest);
      HandleFilesKeepsOthers(first, rest);
      forall i | 0 <= i < |files| && LastOfItsName(files, i)
        ensures r.files[files[i].name] == UploadedEntry(files[i])
      {
        if i == 0 {
          LastFirstNotInRest(files);
        } else {
          LastOfItsNameInRest(files, i);
        }
      }
    }
  }

  /** The upload lines of a selection, one per file, in selection order. */
  function UploadLines(files: seq<UploadedFile>): seq<string> {
    seq(|files|, i requires 0 <= i < |files| => UploadMessage(files[i]))
  }

  lemma UploadLinesCons(files: seq<UploadedFile>)
    requires files != []
    ensures UploadLines(files) == [UploadMessage(files[0])] + UploadLines(files[1..])
  {
    var rest := files[1..];
    forall k | 0 <= k < |UploadLines(files)|
      ensures UploadLines(files)[k] == ([UploadMessage(files[0])] + UploadLines(rest))[k]
    {
      if k > 0 { assert rest[k - 1] == files[k]; }
    }
  }

  /** An upload logs one line per selected file, in selection order, and
      nothing else. */
  lemma {:induction false} HandleFilesLog(fs: FsState, files: seq<UploadedFile>)
    ensures HandleFiles(fs, files).log == fs.log + UploadLines(files)
    decreases |files|
  {
    if files != [] {
      var first := UploadFile(fs, files[0]);
      var rest := files[1..];
      assert HandleFiles(fs, files) == HandleFiles(first, rest);
      assert first.log == fs.log + [UploadMessage(files[0])];
      HandleFilesLog(first, rest);
      UploadLinesCons(files);
      assert fs.log + [UploadMessage(files[0])] + UploadLines(rest)
             == fs.log + ([UploadMessage(files[0])] + UploadLines(rest));
    }
  }

  // ---------------------------------------------------------------- startup

  /** The three lines the page logs half a second after it loads. */
  const ReadyLines: seq<string> := [
    "INFO: System initialized and ready",
    "INFO: Cache initialized with 8MB allocation",
    "INFO: Journal replay complete" ]

  function AnnounceReady(fs: FsState): (r: FsState)
    ensures r.files == fs.files && r.stats == fs.stats
    ensures r.log == fs.log + ReadyLines
  {
    LogAll(fs, ReadyLines)
  }
}

=== FILE: maintenance.dfy ===
/** The maintenance handlers: the crash-and-recovery simulation
    (index.js:299-323), the integrity scan (326-406), the repair
    (409-445) and the optimization (448-482). Each timer-driven loop is a
    step function, `Tick`, iterated until its progress reaches 100. */
module Maintenance {
  import opened JsText
  import opened FileSystem
  import opened Progress

  // ---------------------------------------------------------------- loops

  datatype Loop = Recovery | Repair | Optimization

  /** What each tick adds to the loop's progress. */
  function StepOf(l: Loop): (step: int)
    ensures step > 0
  {
    if l == Repair then 20 else 10
  }

  const RecoveryProgress: string := "INFO: Recovery progress "
  const RepairProgress: string := "INFO: Repair progress "
  const OptimizationProgress: string := "INFO: Optimization progress "

  /** The line a tick logs, `${progress}` rendered in decimal. */
  function ProgressMessage(l: Loop, p: int): string {
    var prefix := match l
      case Recovery => RecoveryProgress
      case Repair => RepairProgress
      case Optimization => OptimizationProgress;
    prefix + IntToString(p) + "%"
  }

  /** The log lines of a run of progress values, in order. */
  function ProgressLog(l: Loop, ps: seq<int>): (log: seq<string>)
    ensures |log| == |ps|
  {
    if ps == [] then [] else [ProgressMessage(l, ps[0])] + ProgressLog(l, ps[1..])
  }

  /** Line `i` of the progress log reports value `i`. */
  lemma {:induction false} ProgressLogAt(l: Loop, ps: seq<int>, i: int)
    requires 0 <= i < |ps|
    ensures ProgressLog(l, ps)[i] == ProgressMessage(l, ps[i])
    decreases i
  {
    if i > 0 {
      ProgressLogAt(l, ps[1..], i - 1);
    }
  }

  /** `fragmentation_percent = max(5, f - 5)` and
      `cache_hit_ratio = min(95, c + 5)`. */
  function Repaired(st: Stats): Stats {
    var f := st.fragmentationPercent - 5.0;
    var c := st.cacheHitRatio + 5.0;
    st.(fragmentationPercent := if f > 5.0 then f else 5.0,
        cacheHitRatio := if c < 95.0 then c else 95.0)
  }

  /** The repair's two clamps are `Math.max` and `Math.min`: fragmentation
      becomes the greater of 5 and five points less, the cache ratio the
      lesser of 95 and five points more, and nothing else changes. */
  lemma RepairedFigures(st: Stats)
    ensures Repaired(st).fragmentationPercent >= 5.0
    ensures Repaired(st).fragmentationPercent >= st.fragmentationPercent - 5.0
    ensures Repaired(st).fragmentationPercent == 5.0
            || Repaired(st).fragmentationPercent == st.fragmentationPercent - 5.0
    ensures Repaired(st).cacheHitRatio <= 95.0
    ensures Repaired(st).cacheHitRatio <= st.cacheHitRatio + 5.0
    ensures Repaired(st).cacheHitRatio == 95.0 || Repaired(st).cacheHitRatio == st.cacheHitRatio + 5.0
    ensures Repaired(st) == st.(fragmentationPercent := Repaired(st).fragmentationPercent,
                                cacheHitRatio := Repaired(st).cacheHitRatio)
  {
  }

  /** From inside the range `MaintenanceBounds` names, which the loaded
      record lies in, the repair stays in it. */
  lemma RepairKeepsBounds(st: Stats)
    requires MaintenanceBounds(st)
    ensures MaintenanceBounds(Repaired(st))
  {
    RepairedFigures(st);
  }

  /** Blocks an optimization hands back. */
  const OptimizeBlocks: int := 15

  /** `fragmentation_percent = max(2, f * 0.5)`,
      `cache_hit_ratio = min(98, c * 1.1)`, fifteen blocks moved from used
      to free, and the usage and free-space figures refreshed. */
  function Optimized(st: Stats): Stats {
    var f := st.fragmentationPercent * 0.5;
    var c := st.cacheHitRatio * 1.1;
    var moved := MoveBlocks(st, -OptimizeBlocks);
    moved.(fragmentationPercent := if f > 2.0 then f else 2.0,
           cacheHitRatio := if c < 98.0 then c else 98.0,
           freeSizeKb := FreeSizeKbOf(moved.freeBlocks))
  }

  /** The optimization's clamps are `Math.max` and `Math.min`: fragmentation
      becomes the greater of 2 and half of it, the cache ratio the lesser of
      98 and a tenth more; fifteen blocks move from used to free, the usage
      and free-space figures agree with the blocks again, and the counters
      stay. */
  lemma OptimizedFigures(st: Stats)
    ensures Optimized(st).fragmentationPercent >= 2.0
    ensures Optimized(st).fragmentationPercent >= st.fragmentationPercent * 0.5
    ensures Optimized(st).fragmentationPercent == 2.0
            || Optimized(st).fragmentationPercent == st.fragmentationPercent * 0.5
    ensures Optimized(st).cacheHitRatio <= 98.0
    ensures Optimized(st).cacheHitRatio <= st.cacheHitRatio * 1.1
    ensures Optimized(st).cacheHitRatio == 98.0 || Optimized(st).cacheHitRatio == st.cacheHitRatio * 1.1
    ensures Optimized(st).usedBlocks == st.usedBlocks - 15
    ensures Optimized(st).freeBlocks == st.freeBlocks + 15
    ensures UsageInSync(Optimized(st)) && FreeSizeInSync(Optimized(st))
    ensures Optimized(st).metrics == st.metrics
  {
  }

  /** From inside the range `MaintenanceBounds` names, which the loaded
      record lies in, the optimization stays in it. */
  lemma OptimizeKeepsBounds(st: Stats)
    requires MaintenanceBounds(st)
    ensures MaintenanceBounds(Optimized(st))
  {
    OptimizedFigures(st);
  }

  /** The lines a handler logs before its loop starts. */
  const CrashWarning: string := "WARNING: File system crash simulation initiated"
  const RecoveryStart: string := "INFO: Starting file system recovery process"
  const RepairStart: string := "INFO: Starting automatic repair process"
  const OptimizationStart: string := "INFO: Beginning optimization process"

  function Prelude(l: Loop): seq<string> {
    match l
    case Recovery => [CrashWarning, RecoveryStart]
    case Repair => [RepairStart]
    case Optimization => [OptimizationStart]
  }

  const RecoveryDone: string := "INFO: File system recovery completed successfully"
  const RepairDone: string := "INFO: Automatic repair completed successfully"
  const OptimizationDone: string := "INFO: File system optimization completed successfully"

  function DoneMessage(l: Loop): string {
    match l
    case Recovery => RecoveryDone
    case Repair => RepairDone
    case Optimization => OptimizationDone
  }

  /** What the final tick does to the figures. */
  function FinalStats(l: Loop, st: Stats): Stats {
    match l
    case Recovery => st.(metrics := Bump(st.metrics, Recoveries))
    case Repair => Repaired(st)
    case Optimization => Optimized(st)
  }

  /** What the tick that reaches 100 does after logging its progress. */
  function Finish(l: Loop, fs: FsState): FsState {
    Log(fs.(stats := FinalStats(l, fs.stats)), DoneMessage(l))
  }

  /** The final work of each loop, by name. */
  lemma FinalStatsByLoop(st: Stats)
    ensures FinalStats(Recovery, st) == st.(metrics := Bump(st.metrics, Recoveries))
    ensures FinalStats(Repair, st) == Repaired(st)
    ensures FinalStats(Optimization, st) == Optimized(st)
  {
  }

  /** Everything a handler with a loop logs, from its first line to its last. */
  function LoopLog(l: Loop): seq<string> {
    Prelude(l) + ProgressLog(l, Trace(0, StepOf(l))) + [DoneMessage(l)]
  }

  /** Line `|pre| + k` of `pre + ProgressLog(l, t) + [done]` reports `t[k]`. */
  lemma ProgressLineAt(l: Loop, pre: seq<string>, t: seq<int>, done: string, k: int)
    requires 0 <= k < |t|
    ensures (pre + ProgressLog(l, t) + [done])[|pre| + k] == ProgressMessage(l, t[k])
  {
    var ps := ProgressLog(l, t);
    ProgressLogAt(l, t, k);
    assert (pre + ps + [done])[|pre| + k] == ps[k];
  }

  /** Where each line of `pre + ProgressLog(l, t) + [done]` sits. */
  lemma ProgressLayout(l: Loop, pre: seq<string>, t: seq<int>, done: string)
    ensures |pre + ProgressLog(l, t) + [done]| == |pre| + |t| + 1
    ensures forall k :: 0 <= k < |t| ==>
              (pre + ProgressLog(l, t) + [done])[|pre| + k] == ProgressMessage(l, t[k])
    ensures (pre + ProgressLog(l, t) + [done])[|pre| + |t|] == done
  {
    forall k | 0 <= k < |t|
      ensures (pre + ProgressLog(l, t) + [done])[|pre| + k] == ProgressMessage(l, t[k])
    {
      ProgressLineAt(l, pre, t, done, k);
    }
  }

  /** The number of ticks a loop runs: ten for the loops that count in
      tens, five for the repair. */
  function TickCount(l: Loop): (n: nat)
    ensures StepOf(l) * n == 100
  {
    if l == Repair then 5 else 10
  }

  /** Every loop started at 0 ticks `TickCount(l)` times, reporting
      `step`, `2 * step`, ..., and exactly 100 last. */
  lemma LoopTrace(l: Loop)
    ensures |Trace(0, StepOf(l))| == TickCount(l)
    ensures forall k :: 0 <= k < TickCount(l) ==> Trace(0, StepOf(l))[k] == StepOf(l) * (k + 1)
    ensures Trace(0, StepOf(l))[TickCount(l) - 1] == 100
  {
    TraceEndsAtHundred(0, StepOf(l), TickCount(l));
    forall k | 0 <= k < TickCount(l) ensures Trace(0, StepOf(l))[k] == StepOf(l) * (k + 1) {
      TraceClosedForm(0, StepOf(l), k);
    }
  }

  /** Every loop's log, line by line: the prelude, then one progress line
      per traced value, in order, then the completion line. */
  lemma LoopLogLines(l: Loop)
    ensures |LoopLog(l)| == |Prelude(l)| + |Trace(0, StepOf(l))| + 1
    ensures forall k :: 0 <= k < |Trace(0, StepOf(l))| ==>
              LoopLog(l)[|Prelude(l)| + k] == ProgressMessage(l, Trace(0, StepOf(l))[k])
    ensures LoopLog(l)[|Prelude(l)| + |Trace(0, StepOf(l))|] == DoneMessage(l)
  {
    ProgressLayout(l, Prelude(l), Trace(0, StepOf(l)), DoneMessage(l));
  }

  lemma SeqAssoc<T>(a: seq<T>, b: seq<T>, c: seq<T>, d: seq<T>)
    ensures (a + b) + c + d == a + (b + c + d)
  {
  }

  /** A handler with a loop, run to completion. */
  function RunHandler(l: Loop, fs: FsState): (r: FsState)
    ensures r.files == fs.files
    ensures r.stats == FinalStats(l, fs.stats)
    ensures r.log == fs.log + LoopLog(l)
  {
    var started := LogAll(fs, Prelude(l));
    RunLoopLogsTraceThenFinishes(l, started, 0);
    var ps := ProgressLog(l, Trace(0, StepOf(l)));
    var pre, done := Prelude(l), [DoneMessage(l)];
    assert LoopLog(l) == pre + ps + done;
    SeqAssoc(fs.log, pre, ps, done);
    RunLoop(l, started, 0)
  }

  /** The interval, fired until it clears itself: each firing adds the
      step and logs the new progress, and the firing that reaches 100 does
      the loop's final work. */
  function RunLoop(l: Loop, fs: FsState, progress: int): (r: FsState)
    ensures r.files == fs.files
    decreases 100 - progress
  {
    var p := progress + StepOf(l);
    var logged := Log(fs, ProgressMessage(l, p));
    if p >= 100 then Finish(l, logged) else RunLoop(l, logged, p)
  }

  /** Logging a line and then a batch is logging the line with the batch. */
  lemma LogThenLogAll(fs: FsState, m: string, ms: seq<string>)
    ensures LogAll(Log(fs, m), ms) == LogAll(fs, [m] + ms)
  {
    assert (fs.log + [m]) + ms == fs.log + ([m] + ms);
  }

  /** The trace of a tick that does not finish is its value then the rest. */
  lemma TraceUnfold(l: Loop, progress: int)
    requires progress + StepOf(l) < 100
    ensures ProgressLog(l, Trace(progress, StepOf(l)))
            == [ProgressMessage(l, progress + StepOf(l))] + ProgressLog(l, Trace(progress + StepOf(l), StepOf(l)))
  {
    var step := StepOf(l);
    var t := Trace(progress, step);
    assert t == [progress + step] + Trace(progress + step, step);
    assert t[1..] == Trace(progress + step, step);
  }

  /** The tick that reaches 100 logs its value, then does the final work. */
  lemma FinalTick(l: Loop, fs: FsState, progress: int)
    requires progress + StepOf(l) >= 100
    ensures RunLoop(l, fs, progress) == Finish(l, Log(fs, ProgressMessage(l, progress + StepOf(l))))
  {
  }

  /** The tick that reaches 100 logs its value and finishes. */
  lemma LastTick(l: Loop, fs: FsState, progress: int)
    requires progress + StepOf(l) >= 100
    ensures RunLoop(l, fs, progress)
            == Finish(l, LogAll(fs, ProgressLog(l, Trace(progress, StepOf(l)))))
  {
    var p := progress + StepOf(l);
    var m := ProgressMessage(l, p);
    FinalTick(l, fs, progress);
    assert Trace(progress, StepOf(l)) == [p];
    assert ProgressLog(l, [p]) == [m];
    assert LogAll(fs, [m]) == Log(fs, m);
  }

  /** A tick below 100 logs its value and leaves the rest to the next one. */
  lemma EarlierTick(l: Loop, fs: FsState, progress: int)
    requires progress + StepOf(l) < 100
    ensures RunLoop(l, fs, progress)
            == RunLoop(l, Log(fs, ProgressMessage(l, progress + StepOf(l))), progress + StepOf(l))
  {
  }

  /** Running the interval logs one progress line per value of the trace,
      then does the loop's final work exactly once. */
  lemma {:induction false} RunLoopLogsTraceThenFinishes(l: Loop, fs: FsState, progress: int)
    ensures RunLoop(l, fs, progress)
            == Finish(l, LogAll(fs, ProgressLog(l, Trace(progress, StepOf(l)))))
    decreases 100 - progress
  {
    var step := StepOf(l);
    var p := progress + step;
    if p >= 100 {
      LastTick(l, fs, progress);
    } else {
      var m := ProgressMessage(l, p);
      var rest := ProgressLog(l, Trace(p, step));
      calc {
        RunLoop(l, fs, progress);
        { EarlierTick(l, fs, progress); }
        RunLoop(l, Log(fs, m), p);
        { RunLoopLogsTraceThenFinishes(l, Log(fs, m), p); }
        Finish(l, LogAll(Log(fs, m), rest));
        { LogThenLogAll(fs, m, rest); }
        Finish(l, LogAll(fs, [m] + rest));
        { TraceUnfold(l, progress); }
        Finish(l, LogAll(fs, ProgressLog(l, Trace(progress, step))));
      }
    }
  }

  /** Every loop, started at 0, stops exactly at 100. */
  lemma LoopTraceEndsAtHundred(l: Loop)
    ensures Trace(0, StepOf(l))[|Trace(0, StepOf(l))| - 1] == 100
  {
    TraceEndsAtHundred(0, StepOf(l), TickCount(l));
  }

  /** One firing of the interval callback, as a step of an imperative
      driver: the rest of the loop from the new state is the rest of the loop
      from the old one. */
  method TickOnce(l: Loop, fs: FsState, progress: int) returns (next: FsState, p: int, finished: bool)
    ensures p == progress + StepOf(l)
    ensures finished <==> p >= 100
    ensures finished ==> next == RunLoop(l, fs, progress)
    ensures !finished ==> RunLoop(l, next, p) == RunLoop(l, fs, progress)
  {
    p := progress + StepOf(l);
    next := Log(fs, ProgressMessage(l, p));
    finished := p >= 100;
    if finished {
      FinalTick(l, fs, progress);
      next := Finish(l, next);
    } else {
      EarlierTick(l, fs, progress);
    }
  }

  /** One tick moves one value from the rest of the trace to the visited part. */
  lemma TickKeepsTrace(visited: seq<int>, progress: int, step: int, trace: seq<int>)
    requires step > 0 && visited + Trace(progress, step) == trace
    ensures progress + step >= 100 ==> visited + [progress + step] == trace
    ensures progress + step < 100 ==> (visited + [progress + step]) + Trace(progress + step, step) == trace
  {
    var q := progress + step;
    assert Trace(progress, step) == [q] + (if q >= 100 then [] else Trace(q, step));
    if q < 100 {
      assert visited + ([q] + Trace(q, step)) == (visited + [q]) + Trace(q, step);
    }
  }

  /** The interval driven tick by tick, as the browser's timer does: it
      visits the full trace of progress values, stops at exactly 100, and
      ends in the state the recursive description gives. */
  method DriveLoop(l: Loop, fs: FsState) returns (r: FsState, visited: seq<int>)
    ensures r == RunLoop(l, fs, 0)
    ensures visited == Trace(0, StepOf(l))
  {
    var step := StepOf(l);
    r := fs;
    visited := [];
    var progress := 0;
    var finished := false;
    ghost var final, trace := RunLoop(l, fs, 0), Trace(0, step);
    assert visited + Trace(progress, step) == trace;
    while !finished
      invariant !finished ==> progress < 100
      invariant !finished ==> RunLoop(l, r, progress) == final
      invariant !finished ==> visited + Trace(progress, step) == trace
      invariant finished ==> r == final && visited == trace
      decreases if finished then 0 else 101 - progress
    {
      TickKeepsTrace(visited, progress, step, trace);
      var next, p, done := TickOnce(l, r, progress);
      visited := visited + [p];
      r, progress, finished := next, p, done;
    }
  }

  /** The driven interval's last reported value is exactly 100. */
  method DriveLoopToHundred(l: Loop, fs: FsState) returns (r: FsState, visited: seq<int>)
    ensures r == RunLoop(l, fs, 0)
    ensures visited != [] && visited[|visited| - 1] == 100
  {
    r, visited := DriveLoop(l, fs);
    LoopTraceEndsAtHundred(l);
  }

  // ---------------------------------------------------------------- crash

  /** `simulateCrash`, with the answer to its `confirm` prompt as
      `confirmed`: a declined prompt changes nothing; a confirmed one logs
      the crash, runs the recovery loop to 100% and counts exactly one
      recovery, leaving the files and every other figure alone. */
  function SimulateCrash(fs: FsState, confirmed: bool): (r: FsState)
    ensures !confirmed ==> r == fs
    ensures confirmed ==>
      && r.files == fs.files
      && SameExceptMetrics(fs.stats, r.stats)
      && CountedEach(fs.stats.metrics, r.stats.metrics, {Recoveries})
      && r.log == fs.log + LoopLog(Recovery)
  {
    if !confirmed then fs
    else fs.(stats := fs.stats.(metrics := Bump(fs.stats.metrics, Recoveries)), log := fs.log + LoopLog(Recovery))
  }

  /** A confirmed crash is the recovery interval run tick by tick. */
  lemma SimulateCrashRunsLoop(fs: FsState)
    ensures SimulateCrash(fs, true) == RunHandler(Recovery, fs)
  {
    FinalStatsByLoop(fs.stats);
  }

  // ---------------------------------------------------------------- integrity

  datatype Severity = Error | Warning | Info

  datatype Issue = Issue(severity: Severity, message: string, fixable: bool)

  /** The outcomes of the scan's three `Math.random()` draws: whether the
      first exceeded 0.5, the second 0.7 and the third 0.6. */
  datatype Draws = Draws(error: bool, warning: bool, info: bool)

  function Rank(s: Severity): int {
    match s
    case Error => 0
    case Warning => 1
    case Info => 2
  }

  const ErrorIssue: Issue := Issue(Error, "Invalid block reference detected in inode table", true)
  const WarningIssue: Issue := Issue(Warning, "Fragmentation level exceeds optimal threshold", true)
  const InfoIssue: Issue := Issue(Info, "Cache hit ratio below expected performance", false)

  /** The issues one scan reports: each of the three possible issues is
      present exactly when its draw came up, nothing else is reported, and
      they come in the order error, warning, info; the error and the warning
      are fixable and the info is not. */
  function ScanIssues(d: Draws): (issues: seq<Issue>)
    ensures |issues| <= 3
    ensures ErrorIssue in issues <==> d.error
    ensures WarningIssue in issues <==> d.warning
    ensures InfoIssue in issues <==> d.info
    ensures forall i :: 0 <= i < |issues| ==> issues[i] in {ErrorIssue, WarningIssue, InfoIssue}
    ensures forall i, j :: 0 <= i < j < |issues| ==> Rank(issues[i].severity) < Rank(issues[j].severity)
    ensures forall i :: 0 <= i < |issues| ==> (issues[i].fixable <==> issues[i].severity != Info)
  {
    var e, w, n := ErrorIssue, WarningIssue, InfoIssue;
    if d.error then
      if d.warning then (if d.info then [e, w, n] else [e, w])
      else (if d.info then [e, n] else [e])
    else if d.warning then (if d.info then [w, n] else [w])
    else (if d.info then [n] else [])
  }

  datatype ScanResult = ScanResult(fs: FsState, issues: seq<Issue>, repairOffered: bool)

  const CheckStart: string := "INFO: Starting file system integrity check"
  const CheckFoundPrefix: string := "INFO: Integrity check complete. Found "

  /** The line that reports how many issues a scan found. */
  function CheckFoundMessage(count: nat): string {
    CheckFoundPrefix + IntToString(count) + " issues."
  }

  /** `checkIntegrity`: logs the start and the number of issues found, and
      offers the repair button exactly when some issue was found. */
  function CheckIntegrity(fs: FsState, d: Draws): (r: ScanResult)
    ensures r.issues == ScanIssues(d)
    ensures r.repairOffered <==> d.error || d.warning || d.info
    ensures r.fs.files == fs.files && r.fs.stats == fs.stats
    ensures r.fs.log == fs.log + [CheckStart, CheckFoundMessage(|r.issues|)]
  {
    var issues := ScanIssues(d);
    var logged := LogAll(fs, [CheckStart, CheckFoundMessage(|issues|)]);
    ScanResult(logged, issues, |issues| > 0)
  }

  /** At most two issues of a scan can be fixed automatically. */
  lemma AtMostTwoFixable(d: Draws)
    ensures forall i :: 0 <= i < |ScanIssues(d)| && ScanIssues(d)[i].fixable ==> i < 2
  {
  }

  // ---------------------------------------------------------------- repair

  /** `fixIntegrityIssues`. It takes no issues and has no guard of its own:
      it runs its loop to 100% in steps of 20 and then clamps the
      fragmentation and cache figures; blocks, files and counters stay. */
  function FixIntegrityIssues(fs: FsState): (r: FsState)
    ensures r.files == fs.files
    ensures r.stats == Repaired(fs.stats)
    ensures r.log == fs.log + LoopLog(Repair)
  {
    fs.(stats := Repaired(fs.stats), log := fs.log + LoopLog(Repair))
  }

  /** The repair is its interval run tick by tick. */
  lemma FixRunsLoop(fs: FsState)
    ensures FixIntegrityIssues(fs) == RunHandler(Repair, fs)
  {
    FinalStatsByLoop(fs.stats);
  }

  /** The repair's clamps are not improvements everywhere: below 10% it
      removes less than five points of fragmentation, and below 5% it raises
      it; above 95% it lowers the cache ratio. */
  lemma RepairCanWorsenFigures(st: Stats)
    requires st.fragmentationPercent < 10.0 || st.cacheHitRatio > 95.0
    ensures Repaired(st).fragmentationPercent > st.fragmentationPercent - 5.0
            || Repaired(st).cacheHitRatio < st.cacheHitRatio + 5.0
    ensures st.fragmentationPercent < 5.0 ==> Repaired(st).fragmentationPercent > st.fragmentationPercent
    ensures st.cacheHitRatio > 95.0 ==> Repaired(st).cacheHitRatio < st.cacheHitRatio
  {
  }

  // ---------------------------------------------------------------- optimize

  /** `optimizeFileSystem`: runs its loop to 100% in steps of 10, then
      halves fragmentation (not below 2), raises the cache ratio by a tenth
      (not above 98) and hands fifteen blocks back. */
  function OptimizeFileSystem(fs: FsState): (r: FsState)
    ensures r.files == fs.files
    ensures r.stats == Optimized(fs.stats)
    ensures r.log == fs.log + LoopLog(Optimization)
  {
    fs.(stats := Optimized(fs.stats), log := fs.log + LoopLog(Optimization))
  }

  /** The optimization is its interval run tick by tick. */
  lemma OptimizeRunsLoop(fs: FsState)
    ensures OptimizeFileSystem(fs) == RunHandler(Optimization, fs)
  {
    FinalStatsByLoop(fs.stats);
  }
}

=== FILE: progress.dfy ===
/** The progress counter of a `setInterval` loop: each tick adds a fixed
    step, and the tick that brings the counter to 100 or beyond is the last
    (index.js:308-320, 414-419, 453-458). */
module Progress {

  /** The values a loop reports after starting from `p`, one per tick. */
  function Trace(p: int, step: int): (t: seq<int>)
    requires step > 0
    ensures |t| >= 1 && t[0] == p + step
    decreases 100 - p
  {
    if p + step >= 100 then [p + step] else [p + step] + Trace(p + step, step)
  }

  /** The `i`-th reported value is `p` plus `i + 1` steps. */
  lemma {:induction false} TraceClosedForm(p: int, step: int, i: nat)
    requires step > 0 && i < |Trace(p, step)|
    ensures Trace(p, step)[i] == p + step * (i + 1)
    decreases i
  {
    if i > 0 {
      assert p + step < 100;
      assert Trace(p, step)[i] == Trace(p + step, step)[i - 1];
      TraceClosedForm(p + step, step, i - 1);
      assert step * (i + 1) == step + step * i;
    }
  }

  /** The loop stops at the first tick that reaches 100: every value before
      the last is below 100, and the last is not. */
  lemma {:induction false} TraceStopsAtHundred(p: int, step: int)
    requires step > 0
    ensures forall i :: 0 <= i < |Trace(p, step)| - 1 ==> Trace(p, step)[i] < 100
    ensures Trace(p, step)[|Trace(p, step)| - 1] >= 100
    decreases 100 - p
  {
    var t := Trace(p, step);
    if p + step < 100 {
      var rest := Trace(p + step, step);
      TraceStopsAtHundred(p + step, step);
      assert t == [p + step] + rest;
      forall i | 1 <= i < |t| ensures t[i] == rest[i - 1] { }
    }
  }

  /** When `k` steps take `p` exactly to 100, the loop stops exactly at 100,
      after `k` ticks. */
  lemma {:induction false} TraceEndsAtHundred(p: int, step: int, k: nat)
    requires step > 0 && k >= 1 && p + step * k == 100
    ensures |Trace(p, step)| == k
    ensures Trace(p, step)[k - 1] == 100
    decreases k
  {
    if k > 1 {
      assert (p + step) + step * (k - 1) == 100;
      TraceEndsAtHundred(p + step, step, k - 1);
    }
  }

  /** The loops that count in tens from 0 report 10, 20, ..., 100. */
  lemma TensFromZero()
    ensures |Trace(0, 10)| == 10
    ensures forall i :: 0 <= i < 10 ==> Trace(0, 10)[i] == 10 * (i + 1)
  {
    TraceEndsAtHundred(0, 10, 10);
    forall i | 0 <= i < 10 ensures Trace(0, 10)[i] == 10 * (i + 1) {
      TraceClosedForm(0, 10, i);
    }
  }

  /** The loop that counts in twenties from 0 reports 20, 40, ..., 100. */
  lemma TwentiesFromZero()
    ensures |Trace(0, 20)| == 5
    ensures forall i :: 0 <= i < 5 ==> Trace(0, 20)[i] == 20 * (i + 1)
  {
    TraceEndsAtHundred(0, 20, 5);
    forall i | 0 <= i < 5 ensures Trace(0, 20)[i] == 20 * (i + 1) {
      TraceClosedForm(0, 20, i);
    }
  }
}

=== FILE: session.dfy ===
/** A session on the page: the handlers of index.js applied one after the
    other to the record, each run to completion, with every prompt answer
    and random draw given as part of the operation. */
module Session {
  import opened FileSystem
  import opened Handlers
  import opened Maintenance

  datatype Op =
    | View(name: string)
    | Download(name: string)
    | Delete(name: string, confirmed: bool)
    | Create(rawName: string, content: string)
    | Save(name: string, content: string)
    | Upload(files: seq<UploadedFile>)
    | Crash(confirmed: bool)
    | Check(draws: Draws)
    | Fix
    | Optimize
    | Startup

  function Apply(fs: FsState, op: Op): FsState {
    match op
    case View(name) => ViewFile(fs, name)
    case Download(name) => DownloadFile(fs, name)
    case Delete(name, confirmed) => DeleteFile(fs, name, confirmed)
    case Create(rawName, content) => CreateFile(fs, rawName, content)
    case Save(name, content) => SaveFile(fs, name, content)
    case Upload(files) => HandleFiles(fs, files)
    case Crash(confirmed) => SimulateCrash(fs, confirmed)
    case Check(draws) => CheckIntegrity(fs, draws).fs
    case Fix => FixIntegrityIssues(fs)
    case Optimize => OptimizeFileSystem(fs)
    case Startup => AnnounceReady(fs)
  }

  function Run(fs: FsState, ops: seq<Op>): FsState
    decreases |ops|
  {
    if ops == [] then fs else Run(Apply(fs, ops[0]), ops[1..])
  }

  /** Only the operations on files change the table. */
  predicate ChangesFiles(op: Op) {
    op.Delete? || op.Create? || op.Save? || op.Upload?
  }

  /** Every operation keeps the two block counters summing to the device
      size and the usage figure matching them. */
  lemma ApplyKeepsConsistent(fs: FsState, op: Op)
    requires Consistent(fs)
    ensures Consistent(Apply(fs, op))
  {
    match op
    case Crash(confirmed) =>
    case Fix =>
    case Optimize =>
    case Upload(files) =>
    case _ =>
  }

  lemma {:induction false} RunKeepsConsistent(fs: FsState, ops: seq<Op>)
    requires Consistent(fs)
    ensures Consistent(Run(fs, ops))
    decreases |ops|
  {
    if ops != [] {
      ApplyKeepsConsistent(fs, ops[0]);
      RunKeepsConsistent(Apply(fs, ops[0]), ops[1..]);
    }
  }

  /** Repair and optimization keep fragmentation within 2..12 and the cache
      ratio within 85..98, the range `MaintenanceBounds` names, which the
      loaded record lies in; no other operation touches them. */
  lemma ApplyKeepsMaintenanceBounds(fs: FsState, op: Op)
    requires MaintenanceBounds(fs.stats)
    ensures MaintenanceBounds(Apply(fs, op).stats)
  {
    if op.Fix? {
      RepairKeepsBounds(fs.stats);
      assert Apply(fs, op).stats == Repaired(fs.stats);
    } else if op.Optimize? {
      OptimizeKeepsBounds(fs.stats);
      assert Apply(fs, op).stats == Optimized(fs.stats);
    } else {
      OthersKeepFigures(fs, op);
    }
  }

  /** Only the repair and the optimization move the two maintenance
      figures. */
  lemma OthersKeepFigures(fs: FsState, op: Op)
    requires !op.Fix? && !op.Optimize?
    ensures Apply(fs, op).stats.fragmentationPercent == fs.stats.fragmentationPercent
    ensures Apply(fs, op).stats.cacheHitRatio == fs.stats.cacheHitRatio
  {
    match op
    case Upload(files) =>
    case _ =>
  }

  lemma {:induction false} RunKeepsMaintenanceBounds(fs: FsState, ops: seq<Op>)
    requires MaintenanceBounds(fs.stats)
    ensures MaintenanceBounds(Run(fs, ops).stats)
    decreases |ops|
  {
    if ops != [] {
      ApplyKeepsMaintenanceBounds(fs, ops[0]);
      RunKeepsMaintenanceBounds(Apply(fs, ops[0]), ops[1..]);
    }
  }

  /** The log only grows: every operation appends lines and never removes
      or rewrites one. */
  lemma ApplyExtendsLog(fs: FsState, op: Op)
    ensures |Apply(fs, op).log| >= |fs.log|
    ensures Apply(fs, op).log[..|fs.log|] == fs.log
  {
    match op
    case Crash(confirmed) =>
    case Fix =>
    case Optimize =>
    case Upload(files) =>
      HandleFilesLog(fs, files);
      assert (fs.log + UploadLines(files))[..|fs.log|] == fs.log;
    case _ =>
  }

  lemma {:induction false} RunExtendsLog(fs: FsState, ops: seq<Op>)
    ensures |Run(fs, ops).log| >= |fs.log|
    ensures Run(fs, ops).log[..|fs.log|] == fs.log
    decreases |ops|
  {
    if ops != [] {
      var next := Apply(fs, ops[0]);
      ApplyExtendsLog(fs, ops[0]);
      RunExtendsLog(next, ops[1..]);
      assert Run(fs, ops).log[..|fs.log|] == Run(fs, ops).log[..|next.log|][..|fs.log|];
    }
  }

  /** The operation counters never go down. */
  lemma ApplyCountsUp(fs: FsState, op: Op, c: Counter)
    ensures Count(Apply(fs, op).stats.metrics, c) >= Count(fs.stats.metrics, c)
  {
    if op.View? || op.Download? || op.Delete? {
      LookupOpCountsUp(fs, op, c);
    } else if op.Create? || op.Save? || op.Upload? {
      StoreOpCountsUp(fs, op, c);
    } else {
      LoopOpCountsUp(fs, op, c);
    }
  }

  lemma LookupOpCountsUp(fs: FsState, op: Op, c: Counter)
    requires op.View? || op.Download? || op.Delete?
    ensures Count(Apply(fs, op).stats.metrics, c) >= Count(fs.stats.metrics, c)
  {
    var r := Apply(fs, op);
    match op
    case View(name) => assert r.stats == ViewFile(fs, name).stats;
    case Download(name) => assert r.stats == DownloadFile(fs, name).stats;
    case Delete(name, confirmed) => assert r.stats == DeleteFile(fs, name, confirmed).stats;
  }

  lemma StoreOpCountsUp(fs: FsState, op: Op, c: Counter)
    requires op.Create? || op.Save? || op.Upload?
    ensures Count(Apply(fs, op).stats.metrics, c) >= Count(fs.stats.metrics, c)
  {
    var r := Apply(fs, op);
    match op
    case Create(rawName, content) => assert r.stats == CreateFile(fs, rawName, content).stats;
    case Save(name, content) => assert r.stats == SaveFile(fs, name, content).stats;
    case Upload(files) => UploadCountsUp(fs, files, c);
  }

  lemma UploadCountsUp(fs: FsState, files: seq<UploadedFile>, c: Counter)
    ensures Count(Apply(fs, Upload(files)).stats.metrics, c) >= Count(fs.stats.metrics, c)
  {
    assert Apply(fs, Upload(files)).stats == HandleFiles(fs, files).stats;
  }

  lemma LoopOpCountsUp(fs: FsState, op: Op, c: Counter)
    requires op.Crash? || op.Check? || op.Fix? || op.Optimize? || op.Startup?
    ensures Count(Apply(fs, op).stats.metrics, c) >= Count(fs.stats.metrics, c)
  {
    match op
    case Crash(confirmed) =>
      CrashCountsUp(fs, confirmed, c);
      assert Apply(fs, op).stats == SimulateCrash(fs, confirmed).stats;
    case Check(draws) =>
      assert Apply(fs, op).stats == CheckIntegrity(fs, draws).fs.stats;
    case Fix =>
      ApplyFixStats(fs);
      RepairedFigures(fs.stats);
    case Optimize =>
      ApplyOptimizeStats(fs);
      OptimizedFigures(fs.stats);
    case Startup =>
      assert Apply(fs, op).stats == AnnounceReady(fs).stats;
  }

  lemma CrashCountsUp(fs: FsState, confirmed: bool, c: Counter)
    ensures Count(SimulateCrash(fs, confirmed).stats.metrics, c) >= Count(fs.stats.metrics, c)
  {
  }

  lemma {:induction false} RunCountsUp(fs: FsState, ops: seq<Op>, c: Counter)
    ensures Count(Run(fs, ops).stats.metrics, c) >= Count(fs.stats.metrics, c)
    decreases |ops|
  {
    if ops != [] {
      ApplyCountsUp(fs, ops[0], c);
      RunCountsUp(Apply(fs, ops[0]), ops[1..], c);
    }
  }

  /** Views, downloads, scans and the maintenance loops leave the table as
      it was. */
  lemma ApplyKeepsFiles(fs: FsState, op: Op)
    requires !ChangesFiles(op)
    ensures Apply(fs, op).files == fs.files
  {
  }

  lemma {:induction false} RunKeepsFiles(fs: FsState, ops: seq<Op>)
    requires forall i :: 0 <= i < |ops| ==> !ChangesFiles(ops[i])
    ensures Run(fs, ops).files == fs.files
    decreases |ops|
  {
    if ops != [] {
      ApplyKeepsFiles(fs, ops[0]);
      assert forall i :: 0 <= i < |ops[1..]| ==> !ChangesFiles(ops[1..][i]) by {
        forall i | 0 <= i < |ops[1..]| ensures !ChangesFiles(ops[1..][i]) {
          assert ops[1..][i] == ops[i + 1];
        }
      }
      RunKeepsFiles(Apply(fs, ops[0]), ops[1..]);
    }
  }

  /** Every record a session can reach from the loaded page keeps the block
      bookkeeping and the maintenance ranges, and still holds the six
      initial log lines. */
  lemma Reachable(ops: seq<Op>)
    ensures Consistent(Run(Initial(), ops))
    ensures MaintenanceBounds(Run(Initial(), ops).stats)
    ensures |Run(Initial(), ops).log| >= |Initial().log|
    ensures Run(Initial(), ops).log[..|Initial().log|] == Initial().log
  {
    RunKeepsConsistent(Initial(), ops);
    RunKeepsMaintenanceBounds(Initial(), ops);
    RunExtendsLog(Initial(), ops);
  }

  /** `n` confirmed deletes hand back `5 * n` blocks: nothing stops the
      used count below zero. */
  lemma {:induction false} RepeatedDeletes(fs: FsState, name: string, n: nat)
    ensures Run(fs, seq(n, _ => Delete(name, true))).stats.usedBlocks == fs.stats.usedBlocks - 5 * n
    decreases n
  {
    var ops := seq(n, _ => Delete(name, true));
    if n > 0 {
      var next := Apply(fs, ops[0]);
      assert ops[1..] == seq(n - 1, _ => Delete(name, true));
      RepeatedDeletes(next, name, n - 1);
    }
  }

  /** Fifty-one deletes from the loaded page leave the used count at -5. */
  lemma UsedBlocksGoNegative()
    ensures Run(Initial(), seq(51, _ => Delete("readme.txt", true))).stats.usedBlocks == -5
  {
    RepeatedDeletes(Initial(), "readme.txt", 51);
  }

  /** A session of two or three operations applies them in order. */
  lemma RunThree(fs: FsState, a: Op, b: Op, c: Op)
    ensures Run(fs, [a, b]) == Apply(Apply(fs, a), b)
    ensures Run(fs, [a, b, c]) == Apply(Apply(Apply(fs, a), b), c)
  {
    var x, y := Apply(fs, a), Apply(Apply(fs, a), b);
    assert [a, b][1..] == [b];
    assert [a, b, c][1..] == [b, c];
    assert [b, c][1..] == [c];
    assert [b][1..] == [];
    assert [c][1..] == [];
    assert Run(x, [b]) == Run(y, []);
    assert Run(y, [c]) == Run(Apply(y, c), []);
  }

  lemma ApplyOptimizeStats(fs: FsState)
    ensures Apply(fs, Optimize).stats == Optimized(fs.stats)
  {
  }

  lemma ApplyFixStats(fs: FsState)
    ensures Apply(fs, Fix).stats == Repaired(fs.stats)
  {
  }

  /** The repair can raise fragmentation in a real session: two
      optimizations take the loaded page from 12% to 3%, and a repair after
      them sets it to 5%. */
  lemma RepairRaisesFragmentation()
    ensures Run(Initial(), [Optimize, Optimize]).stats.fragmentationPercent == 3.0
    ensures Run(Initial(), [Optimize, Optimize, Fix]).stats.fragmentationPercent == 5.0
  {
    var once := Apply(Initial(), Optimize);
    var twice := Apply(once, Optimize);
    RunThree(Initial(), Optimize, Optimize, Fix);
    ApplyOptimizeStats(Initial());
    ApplyOptimizeStats(once);
    ApplyFixStats(twice);
    OptimizedFigures(Initial().stats);
    OptimizedFigures(once.stats);
    RepairedFigures(twice.stats);
  }

  /** Half a second after the page loads, the log holds the six initial
      lines followed by the three ready lines, and nothing else has moved. */
  lemma StartupAfterLoad()
    ensures Run(Initial(), [Startup]).log == InitialLog + ReadyLines
    ensures |Run(Initial(), [Startup]).log| == 9
    ensures Run(Initial(), [Startup]).files == Initial().files
    ensures Run(Initial(), [Startup]).stats == Initial().stats
  {
    assert [Startup][1..] == [];
    assert Run(Initial(), [Startup]) == AnnounceReady(Initial());
  }
}

=== FILE: text.dfy ===
/** The pieces of JavaScript string behaviour the handlers depend on:
    `String.prototype.trim`, the UTF-16 `length` of a string, and the decimal
    rendering of an integer inside a template literal. */
module JsText {

  /** The characters `trim` strips: ECMAScript WhiteSpace and LineTerminator. */
  predicate IsJsWhitespace(c: char) {
    || c == '\t' || c == '\n' || c == '\U{000B}' || c == '\U{000C}' || c == '\r'
    || c == ' ' || c == '\U{00A0}' || c == '\U{1680}'
    || ('\U{2000}' <= c <= '\U{200A}')
    || c == '\U{2028}' || c == '\U{2029}' || c == '\U{202F}' || c == '\U{205F}'
    || c == '\U{3000}' || c == '\U{FEFF}'
  }

  predicate AllWhitespace(s: string) {
    forall i :: 0 <= i < |s| ==> IsJsWhitespace(s[i])
  }

  /** The first position at or after `i` that does not hold whitespace
      (or `|s|` when there is none). */
  function SkipWhitespace(s: string, i: nat): (k: nat)
    requires i <= |s|
    ensures i <= k <= |s|
    ensures forall m :: i <= m < k ==> IsJsWhitespace(s[m])
    ensures k < |s| ==> !IsJsWhitespace(s[k])
    decreases |s| - i
  {
    if i < |s| && IsJsWhitespace(s[i]) then SkipWhitespace(s, i + 1) else i
  }

  /** The position just after the last character at or after `lo` that is
      not whitespace (or `lo` when there is none). */
  function BackWhitespace(s: string, lo: nat, j: nat): (k: nat)
    requires lo <= j <= |s|
    ensures lo <= k <= j
    ensures forall m :: k <= m < j ==> IsJsWhitespace(s[m])
    ensures k > lo ==> !IsJsWhitespace(s[k - 1])
    decreases j
  {
    if j > lo && IsJsWhitespace(s[j - 1]) then BackWhitespace(s, lo, j - 1) else j
  }

  /** Where the trimmed part of `s` starts. */
  function TrimStartIndex(s: string): nat
    ensures TrimStartIndex(s) <= |s|
  {
    SkipWhitespace(s, 0)
  }

  /** Where the trimmed part of `s` ends. */
  function TrimEndIndex(s: string): (j: nat)
    ensures TrimStartIndex(s) <= j <= |s|
  {
    BackWhitespace(s, TrimStartIndex(s), |s|)
  }

  /** `String.prototype.trim`: the slice between the two indices. */
  function Trim(s: string): (r: string)
    ensures |r| <= |s|
  {
    s[TrimStartIndex(s)..TrimEndIndex(s)]
  }

  /** The trimmed string is a contiguous piece of the input with only
      whitespace cut away on either side, and it neither starts nor ends
      with whitespace. */
  lemma TrimIsSlice(s: string) returns (i: nat, j: nat)
    ensures i <= j <= |s|
    ensures Trim(s) == s[i..j]
    ensures AllWhitespace(s[..i]) && AllWhitespace(s[j..])
    ensures Trim(s) == [] || (!IsJsWhitespace(Trim(s)[0]) && !IsJsWhitespace(Trim(s)[|Trim(s)| - 1]))
  {
    i, j := TrimStartIndex(s), TrimEndIndex(s);
    forall m | 0 <= m < i ensures IsJsWhitespace(s[..i][m]) {
      assert s[..i][m] == s[m];
    }
    forall m | 0 <= m < |s| - j ensures IsJsWhitespace(s[j..][m]) {
      assert s[j..][m] == s[j + m];
    }
    if i < j {
      assert Trim(s)[0] == s[i];
      assert Trim(s)[|Trim(s)| - 1] == s[j - 1];
    }
  }

  /** A name trims to nothing exactly when it is all whitespace: the
      "Please enter a file name" branch. */
  lemma {:induction false} TrimEmptyIffBlank(s: string)
    ensures Trim(s) == [] <==> AllWhitespace(s)
  {
    var i, j := TrimIsSlice(s);
    if Trim(s) == [] {
      forall k | 0 <= k < |s| ensures IsJsWhitespace(s[k]) {
        if k < i { assert s[k] == s[..i][k]; } else { assert s[k] == s[j..][k - j]; }
      }
    }
  }

  /** Trimming twice is trimming once. */
  lemma {:induction false} TrimIdempotent(s: string)
    ensures Trim(Trim(s)) == Trim(s)
  {
    var i, j := TrimIsSlice(s);
    var r := Trim(s);
    if r != [] {
      assert TrimStartIndex(r) == 0;
      assert TrimEndIndex(r) == |r|;
      assert r[0..|r|] == r;
    }
  }

  /** The number of UTF-16 code units of a string, which is what a JavaScript
      string's `length` reports: characters outside the Basic Multilingual
      Plane take two units. */
  function Utf16Length(s: string): (n: nat)
  {
    if s == [] then 0 else (if s[0] as int >= 0x1_0000 then 2 else 1) + Utf16Length(s[1..])
  }

  /** A string's JavaScript length lies between its character count and
      twice that, and equals the character count exactly when every character
      is in the Basic Multilingual Plane. */
  lemma {:induction false} Utf16LengthBounds(s: string)
    ensures |s| <= Utf16Length(s) <= 2 * |s|
    ensures Utf16Length(s) == |s| <==> forall i :: 0 <= i < |s| ==> s[i] as int < 0x1_0000
  {
    if s != [] {
      Utf16LengthBounds(s[1..]);
      if Utf16Length(s) == |s| {
        assert s[0] as int < 0x1_0000;
        forall i | 1 <= i < |s| ensures s[i] as int < 0x1_0000 {
          assert s[i] == s[1..][i - 1];
        }
      }
      if forall i :: 0 <= i < |s| ==> s[i] as int < 0x1_0000 {
        forall i | 0 <= i < |s| - 1 ensures s[1..][i] as int < 0x1_0000 {
          assert s[1..][i] == s[i + 1];
        }
      }
    }
  }

  predicate IsDigit(c: char) {
    '0' <= c <= '9'
  }

  function DigitChar(d: nat): (c: char)
    requires d < 10
    ensures IsDigit(c)
  {
    (('0' as int) + d) as char
  }

  function DigitValue(c: char): nat {
    if IsDigit(c) then c as int - '0' as int else 0
  }

  /** Decimal rendering of a non-negative integer, without leading zeros. */
  function NatToString(n: nat): (r: string)
    ensures |r| >= 1
    decreases n
  {
    if n < 10 then [DigitChar(n)] else NatToString(n / 10) + [DigitChar(n % 10)]
  }

  /** The rendering is made of decimal digits only, and starts with `0`
      only for zero itself. */
  lemma {:induction false} NatToStringDigits(n: nat)
    ensures forall i :: 0 <= i < |NatToString(n)| ==> IsDigit(NatToString(n)[i])
    ensures NatToString(n)[0] == '0' <==> n == 0
    decreases n
  {
    if n >= 10 {
      assert NatToString(n)[0] == NatToString(n / 10)[0];
      NatToStringDigits(n / 10);
      var r := NatToString(n);
      forall i | 0 <= i < |r| ensures IsDigit(r[i]) {
        if i < |r| - 1 { assert r[i] == NatToString(n / 10)[i]; }
      }
    }
  }

  /** What `${i}` produces for an integer `i`. */
  function IntToString(i: int): (r: string)
    ensures r != []
  {
    if i < 0 then "-" + NatToString(-i) else NatToString(i)
  }

  /** A rendering starts with a minus sign exactly when the number is
      negative. */
  lemma IntToStringSign(i: int)
    ensures IntToString(i)[0] == '-' <==> i < 0
  {
    if i >= 0 {
      NatToStringDigits(i);
    }
  }

  /** Reads a string of decimal digits back as a number. */
  function ParseDecimal(s: string): nat {
    if s == [] then 0 else 10 * ParseDecimal(s[..|s| - 1]) + DigitValue(s[|s| - 1])
  }

  /** The decimal rendering is read back as the number it renders, so no two
      numbers render alike. */
  lemma {:induction false} ParseNatToString(n: nat)
    ensures ParseDecimal(NatToString(n)) == n
    decreases n
  {
    var r := NatToString(n);
    if n >= 10 {
      ParseNatToString(n / 10);
      assert r[..|r| - 1] == NatToString(n / 10);
    }
  }

  lemma NatToStringInjective(m: nat, n: nat)
    requires NatToString(m) == NatToString(n)
    ensures m == n
  {
    ParseNatToString(m);
    ParseNatToString(n);
  }
}
